=== FILE: README.md ===
# up_param archive patcher — Dafny model

This project models the core of `up_param_tool.py`, a tool that replaces boot-logo
images inside a phone's `up_param` partition image. That image is a tar archive in the
POSIX.1 ustar Interchange Format. It has 512-byte header blocks and block-aligned
payloads. A device reads the images at fixed offsets, so every substituted image must
keep its entry's exact size.

The model covers three parts:

- **The patch pass** (`patch_and_flash`, the read/write loop). It reads a 512-byte
  header block. It stops on an empty read or an all-zero block, then copies that block
  and everything after it. Otherwise it decodes the name (offset 0, 100 bytes) and the
  octal size (offset 124, 12 bytes), and takes `ceil(size/512)` blocks as the payload
  region. An entry whose staged replacement has exactly the declared size gets the
  replacement, zero-padded to the block boundary. Every other entry keeps its original
  payload. An undecodable size field aborts the pass.
  Modules: `TarHeader`, `ArchiveWalker`, `PatchAssembler`.
- **The byte-budget re-encoder** (`reencode_to_target`). It sweeps the encoder quality
  85, 80, …, 10 and takes the first output that is no larger than the target. It
  zero-pads that output to exactly the target size. The encoder is a pure function
  `(source, geometry, quality) -> Option<bytes>` with no monotonicity assumed.
  Module: `Reencoder`.
- **The consistency check** (`fix_images`). For each regular-file member it decides
  one of three things: no replacement, same size, or a size mismatch. On a mismatch it
  re-encodes the replacement in place to the member's size, using the probed geometry
  of the stock image or the default `1248x584`. The geometry probe is a parameter.
  Module: `ConsistencyChecker`.

Supporting modules: `Wrappers` (Option/Result), `Bytes` (byte strings, Python-style
clamped slicing), `Staging` (the replacement set, a map from entry name to bytes).

Details of the code that the model keeps:

- The sweep tries 16 qualities: 85 down to 10, while `quality > 5`.
- The entry name is the 100-byte field with only its *trailing* NULs removed. It is not
  cut at the first NUL.
- A size field that is non-empty after trimming and not octal is an error that aborts
  the pass. Only an empty field means 0.
- The default geometry is also used when the probe succeeds but prints an empty string.
  The source writes `get_geometry(...) or "1248x584"`.

## Model

| member | source | states |
|---|---|---|
| `Bytes.Slice` | up_param_tool.py:204-205 | Python slicing of a header that may be short: the exact sub-range when it is in bounds, the rest of the input when the end is past it, and empty when the start is past it |
| `TarHeader.RStripSplits` | up_param_tool.py:204-205 | `rstrip` keeps a prefix and removes exactly the trailing run of padding bytes; the kept part does not end in padding |
| `TarHeader.LStripSplits` | up_param_tool.py:205 | the leading half of `strip()`: keeps a suffix and removes exactly the leading run of whitespace |
| `TarHeader.EntryNameStripsTrailingNuls` | up_param_tool.py:204 | the name is the 100-byte field up to its last non-NUL byte; only trailing NULs are dropped, so interior NULs stay |
| `TarHeader.ParseOctal` | up_param_tool.py:206 | the digits-only octal parse succeeds exactly when every byte is an octal digit; its value is below 8^(number of digits), and writing it back in as many digits gives the parsed bytes |
| `TarHeader.OctalRoundTrip` | up_param_tool.py:206 | reading back `width` zero-padded octal digits of `n` gives `n` whenever `n < 8^width` |
| `TarHeader.DecodeSize` | up_param_tool.py:205-206 | a decoded size fits the 12-byte octal field (below 8^12) |
| `TarHeader.DecodeSizeExactly` | up_param_tool.py:205-206 | the size decodes to `n` if and only if the field is whitespace, octal digits worth `n`, whitespace and then NULs; a blank or NUL between digits, or any other byte, makes the header undecodable |
| `TarHeader.SizeFieldWithPadding` | up_param_tool.py:205-206 | a size field of whitespace, zero-padded octal digits of `n`, whitespace and then NULs decodes to `n`: trailing NULs and surrounding whitespace are trimmed before parsing |
| `TarHeader.SizeFieldRoundTrip` | up_param_tool.py:205-206 | a ustar size field (11 octal digits then a NUL) decodes to the number it encodes |
| `TarHeader.EmptySizeFieldIsZero` | up_param_tool.py:205-206 | an all-NUL size field is the empty field and gives size 0 |
| `TarHeader.SizeFieldRejectsJunk` | up_param_tool.py:205-206 | any byte in the size field that is not an octal digit, whitespace or NUL survives trimming and makes the model's decoding fail; for `+`, `-`, `_`, `o`, `O` and bytes of 0x80 and above this is stricter than the source, see below |
| `TarHeader.BlockCount` | up_param_tool.py:207 | `blocks` is the least block count whose bytes hold `size`, i.e. `ceil(size/512)` |
| `TarHeader.PadCount` | up_param_tool.py:216 | the zero padding after a payload is between 0 and 511 bytes and ends it on a block boundary |
| `ArchiveWalker.ReadEntry` | up_param_tool.py:198-208 | one loop step stops exactly at an empty read or an all-zero block; otherwise it splits the input losslessly into header, payload region and remainder, and the payload is cut short only at end of input |
| `ArchiveWalker.Walk` | up_param_tool.py:197-201 | a successful walk ends in a tail that is empty or starts with the all-zero terminator block |
| `ArchiveWalker.WalkLossless` | up_param_tool.py:196-224 | the walked entries and tail laid end to end are the input archive |
| `ArchiveWalker.WalkOfLayout` | up_param_tool.py:197-208 | complete entries (a full header block whose name and size the entry holds, then its whole payload region) followed by a terminator are walked back exactly, so the walk succeeds on every such archive, whatever its length |
| `ArchiveWalker.WalkWellFormed` | up_param_tool.py:198-208 | every walked entry comes from a non-empty, non-zero header of at most 512 bytes; its name, size and block count are decoded from that header, and its payload is at most `blocks*512` bytes |
| `PatchAssembler.Region` | up_param_tool.py:210-222 | a taken replacement fills exactly `blocks*512` bytes: the replacement, then zeros; otherwise the original payload region is written |
| `PatchAssembler.PatchFollowsWalk` | up_param_tool.py:196-227 | `Patch`, the read/write loop as written, fails exactly when the walk meets a corrupt header, whatever the replacements are; otherwise it writes each entry's header and region in order, then the tail |
| `PatchAssembler.PatchOfLayout` | up_param_tool.py:196-224 | the pass succeeds on every archive of complete entries followed by a terminator, of any length, and writes each entry's header and region, then the tail |
| `PatchAssembler.PatchRejectsCorruptHeader` | up_param_tool.py:197-227 | a byte that is not an octal digit, whitespace or NUL in the size field of any header, after any number of complete entries, aborts the whole pass; for `+`, `-`, `_`, `o`, `O` and bytes of 0x80 and above this is stricter than the source, see below |
| `PatchAssembler.PatchIdentity` | up_param_tool.py:199-224 | when no entry has a same-sized replacement, the output equals the input byte for byte |
| `PatchAssembler.PatchWithoutReplacements` | up_param_tool.py:210-224 | with an empty replacement set the pass either copies the archive exactly or reports the walk's header error |
| `PatchAssembler.PatchLength` | up_param_tool.py:207-216 | the output is never shorter than the input, and has exactly the input's length when every payload region is fully present |
| `PatchAssembler.PatchCopiesTail` | up_param_tool.py:198-224 | the output ends with the terminator block and all bytes after it, unchanged |
| `PatchAssembler.PatchChangesOnlyMatchedPayloads` | up_param_tool.py:202-222 | in an intact archive, an output byte differs from the input byte at the same offset only inside the payload region of an entry whose replacement was taken |
| `PatchAssembler.PatchKeepsLayout` | up_param_tool.py:202-216 | walking the output finds the same headers at the same boundaries and the same tail; each entry holds the region the pass wrote |
| `PatchAssembler.PatchIdempotent` | up_param_tool.py:210-222 | patching the patched archive again with the same replacements gives the same bytes |
| `Reencoder.Pad` | up_param_tool.py:139 | the padded output is exactly `target` bytes: the encoding, then zeros |
| `Reencoder.FirstFit` | up_param_tool.py:115-143 | the sweep's choice is the highest tried quality whose encoding exists and fits; every higher quality failed or was too large; no choice means nothing fits |
| `Reencoder.Reencode` | up_param_tool.py:113-148 | success gives exactly `target` bytes: the best-fitting quality's encoding, zero-padded; failure happens exactly when no quality from 85 down to 10 fits |
| `Reencoder.ReencodeToTarget` | up_param_tool.py:113-148 | the loop as written, where encoder failure and oversize both step down, computes the re-encoder's result with at most 16 encoder calls, and exactly 16 when it fails |
| `ConsistencyChecker.Geometry` | up_param_tool.py:178 | the geometry is never empty; it is the probed one unless the probe failed or printed nothing, and then it is `1248x584` |
| `ConsistencyChecker.FixEntry` | up_param_tool.py:164-182 | only a mismatched replacement is re-encoded, to the member's size with the probed-or-default geometry; it is repaired exactly when the re-encoder succeeds, and then the staged file becomes the re-encoder's output, which has the member's size; a failure means no quality fits and nothing is written; no other staged file changes |
| `ConsistencyChecker.FixImages` | up_param_tool.py:159-182 | the pass produces one action per member, keeps the set of staged names, and never changes a file that no regular member is named after |
| `ConsistencyChecker.FixImagesCompliantIsNoop` | up_param_tool.py:168-171 | over an already-compliant staging set the pass makes no re-encode attempt and writes nothing |
| `ConsistencyChecker.FixImagesRepairsOrReports` | up_param_tool.py:168-180 | with distinct member names, each staged replacement ends with its member's size, or its repair failed and it is unchanged |
| `ConsistencyChecker.FixImagesSecondRunWritesNothing` | up_param_tool.py:159-182 | with distinct member names, a second pass right after the first writes nothing and repairs nothing |

## Left out

- `run_adb`, `run`, `retrieve_and_unpack`, the flashing steps (lines 231-235) and `main_menu` are left out. They are adb/subprocess calls, permission-retry string matching and interactive input.
- `get_geometry` and the `magick` command are left out. They are external processes. They appear only as the `Probe` and `Codec` function parameters. The fixed encoder options (colour space, depth, sampling, strip) are folded into `Codec`.
- Scratch files are not modelled. This covers the `.tmp.jpg` file, the temporary stock-image file and their deletion.
- Console messages are not modelled.
- The checks that the archive and staging directory exist (lines 151-156, 185-190) and their `sys.exit` are not modelled. The archive and the replacement set are given as values.
- The patch pass's `sys.exit(1)` on an exception is modelled as an `Err` result. The partial output file the source leaves behind is not modelled.
- Read and write I/O errors are not modelled. Reads are slices of the input, so a short read happens only at end of input.
- `fix_images` uses Python's `tarfile` to list members (`getmembers`, `isfile`, `extractfile`). Here the members are given as `Member` records (name, size, regular-file flag, stock bytes). This leaves out `tarfile`'s own header parsing: the ustar prefix field, GNU/pax long names, and the type flag behind `isfile`. It also leaves out any link between that list and the entries the patch pass walks.
- Name decoding and path joining are not modelled. The source decodes names as UTF-8 with undecodable bytes dropped, then looks them up as `os.path.join("patched", name)` on the filesystem. Here names are raw bytes looked up in a map. Not covered: an empty name (which resolves to the staging directory itself), absolute or `..` names, two byte strings that decode to the same text, and a name with an interior NUL (the filesystem lookup reports such a path as missing, so the source never substitutes that entry, while the model looks the name up like any other).
- `TarHeader.DecodeSize`: parses digits only. Python's `int(field, 8)` also accepts a sign, a `0o` prefix, underscores and non-ASCII digits; the model rejects all of these as errors. Before that, the field's `.decode("utf-8", errors="ignore")` drops undecodable bytes, which the model does not do. Whitespace is Python's ASCII whitespace set, so non-ASCII Unicode whitespace that `str.strip()` removes, such as the UTF-8 no-break space `C2 A0`, is an error in the model.
- `TarHeader.DecodeSizeExactly`: characterises the model's decoder, so it holds of the source only for fields of ASCII bytes without a sign, `0o` prefix or underscores, for the reasons on the previous line.
- `ArchiveWalker.WalkOfLayout` and `PatchAssembler.PatchOfLayout`: state success only for archives of complete entries. An archive whose last header block or payload region is cut short by end of input is walked too, but no lemma characterises it.
- `TarHeader.SizeFieldRejectsJunk`: holds of the source only for ASCII bytes other than `+`, `-`, `_`, `o` and `O`. Python's `int(field, 8)` accepts a leading sign, underscores between digits and a `0o`/`0O` prefix, so `+0000000012` and `0o12` give size 10 there. The source also decodes the field as UTF-8 and drops undecodable bytes, so a lone byte of 0x80 or above disappears before parsing; the field `0000000012`, 0xFF, NUL gives size 10 there too. The model reports an error in all of these cases.
- `PatchAssembler.PatchRejectsCorruptHeader`: inherits the previous line's limits. A header whose size field holds `+`, `-`, `_`, `o`, `O` or a lone byte of 0x80 or above in a form that Python accepts does not abort the source's pass, while the model aborts. A `-` sign even gives a negative size in the source, which reads no payload blocks; the model does not follow that path.
- `PatchAssembler.PatchLength`: equality of lengths is proved only when every payload region is fully present. If the last payload is truncated and its replacement is taken, the source writes the full padded region, so the output is longer. The model keeps that behaviour and proves only "never shorter".
- `PatchAssembler.PatchChangesOnlyMatchedPayloads`, `PatchAssembler.PatchKeepsLayout` and `PatchAssembler.PatchIdempotent` hold only for archives whose payload regions are fully present, as the previous line explains.
- `ConsistencyChecker.FixEntry`: "no other staged file changes" ignores the re-encoder's scratch file. That file is the staged file's path plus `.tmp.jpg`, inside the staging directory, and it is written and then deleted, even when every attempt fails. A staged replacement whose name is another staged name plus `.tmp.jpg` is therefore overwritten and removed by the source; the model leaves it alone.
- `ConsistencyChecker.FixImages`: keeps the set of staged names and leaves files no regular member is named after untouched only up to the same scratch file; a staged `<name>.tmp.jpg` next to a repaired `<name>` disappears in the source.
- `ConsistencyChecker.FixImagesRepairsOrReports` and `ConsistencyChecker.FixImagesSecondRunWritesNothing` assume distinct regular-file names. With two members of the same name and different sizes, the source re-encodes the shared replacement on every run.

=== FILE: archive_walker.dfy ===
/**
  The walk over the archive that the patch loop performs: read one 512-byte block; stop
  on an empty read or an all-zero block; otherwise decode the header and take the next
  `ceil(size/512)` blocks (or whatever is left) as the payload region.
*/
module ArchiveWalker {
  import opened Bytes
  import opened Wrappers
  import opened TarHeader

  /** One entry as the walk sees it: its header block and the payload region after it. */
  datatype Entry = Entry(header: seq<byte>, name: seq<byte>, size: nat, blocks: nat, payload: seq<byte>)
  {
    /** The payload region holds every one of its `blocks * 512` bytes (not cut short by end of input). */
    predicate Intact() {
      |payload| == BlockBytes(blocks)
    }
  }

  /** The outcome of reading at one position of the archive. */
  datatype Step =
    | End                                        // empty read or all-zero block: stop here
    | Corrupt(error: HeaderError)                // the header's size field is not octal
    | Next(entry: Entry, remainder: seq<byte>)   // an entry, then the bytes after its payload region

  /** The whole archive split into entries, followed by the terminator block and any trailing bytes. */
  datatype Layout = Layout(entries: seq<Entry>, tail: seq<byte>)

  /** The block accounting of an entry: a header of at most one block, then at most `blocks` blocks of payload. */
  predicate Shaped(e: Entry) {
    && 0 < |e.header| <= BLOCK
    && e.blocks == BlockCount(e.size)
    && |e.payload| <= BlockBytes(e.blocks)
  }

  /** What the walk knows of every entry it yields: all fields come from the header block. */
  predicate WellFormed(e: Entry) {
    && Shaped(e)
    && !IsZeroBlock(e.header)
    && e.name == EntryName(e.header)
    && DecodeSize(e.header) == Ok(e.size)
  }

  /** A whole block of zero bytes: the end-of-archive marker. */
  predicate IsZeroBlock(h: seq<byte>) {
    |h| == BLOCK && forall k :: 0 <= k < |h| ==> h[k] == 0
  }

  /** The walk stops here: nothing left, or a whole block of zeros. */
  predicate IsTerminator(rest: seq<byte>) {
    |rest| == 0 || (|rest| >= BLOCK && IsZeroBlock(rest[..BLOCK]))
  }

  /** One iteration of the read loop: a header block, then its payload region. */
  function ReadEntry(rest: seq<byte>): (s: Step)
    ensures s.End? <==> IsTerminator(rest)
    ensures s.Corrupt? ==> DecodeSize(rest[..Min(BLOCK, |rest|)]) == Err(s.error)
    ensures s.Next? ==> WellFormed(s.entry)
    ensures s.Next? ==> rest == s.entry.header + s.entry.payload + s.remainder
    ensures s.Next? && !s.entry.Intact() ==> s.remainder == []
    ensures s.Next? && |s.entry.header| < BLOCK ==> s.entry.payload == [] && s.remainder == []
  {
    var header := rest[..Min(BLOCK, |rest|)];
    if |header| == 0 || IsZeroBlock(header) then End
    else match DecodeSize(header)
      case Err(e) => Corrupt(e)
      case Ok(size) =>
        var blocks := BlockCount(size);
        var after := rest[|header|..];
        var payload := after[..Min(BlockBytes(blocks), |after|)];
        assert rest == header + payload + after[|payload|..];
        Next(Entry(header, EntryName(header), size, blocks, payload), after[|payload|..])
  }

  /** The three parts of a header block, a region and what follows, cut apart again. */
  lemma SplitAfterHeader(h: seq<byte>, body: seq<byte>, out: seq<byte>)
    requires |h| == BLOCK
    ensures (h + body + out)[..BLOCK] == h
    ensures (h + body + out)[BLOCK..] == body + out
    ensures (body + out)[..|body|] == body
    ensures (body + out)[|body|..] == out
  {
    assert (h + body + out)[BLOCK..] == body + out;
  }

  /** Reading a full header block followed by a region of its block count gives back that entry. */
  lemma ReadFullEntry(e: Entry, body: seq<byte>, out: seq<byte>)
    requires WellFormed(e) && |e.header| == BLOCK && |body| == BlockBytes(e.blocks)
    ensures ReadEntry(e.header + body + out) == Next(e.(payload := body), out)
  {
    SplitAfterHeader(e.header, body, out);
  }

  /** A junk byte in the size field of the next header makes that step a corrupt one. */
  lemma ReadCorruptHeader(rest: seq<byte>, k: nat)
    requires SIZE_OFFSET <= k < SIZE_OFFSET + SIZE_LEN && k < |rest|
    requires !IsOctalDigit(rest[k]) && !IsSpace(rest[k]) && !IsNul(rest[k])
    ensures ReadEntry(rest).Corrupt?
  {
    var header := rest[..Min(BLOCK, |rest|)];
    assert header[k] == rest[k];
    SizeFieldRejectsJunk(header, k);
    assert !IsZeroBlock(header);
  }

  /** The bytes of entries laid end to end. */
  function FlattenEntries(es: seq<Entry>): seq<byte> {
    if |es| == 0 then [] else es[0].header + es[0].payload + FlattenEntries(es[1..])
  }

  /** Putting one entry in front of a layout puts its bytes in front of the layout's bytes. */
  lemma FlattenCons(e: Entry, l: Layout)
    ensures Flatten(Layout([e] + l.entries, l.tail)) == e.header + e.payload + Flatten(l)
  {
    assert ([e] + l.entries)[1..] == l.entries;
  }

  function Flatten(l: Layout): seq<byte> {
    FlattenEntries(l.entries) + l.tail
  }

  /** Every entry's payload region is complete. */
  predicate AllIntact(l: Layout) {
    forall i :: 0 <= i < |l.entries| ==> l.entries[i].Intact()
  }

  /**
    The whole walk. On success it loses nothing (flattening the layout gives back the
    archive), every entry is read from a non-terminator header, and the tail is either
    empty or starts with the all-zero block that stopped the walk.
  */
  function Walk(a: seq<byte>): (r: Result<Layout, HeaderError>)
    ensures r.Ok? ==> IsTerminator(r.value.tail)
    decreases |a|
  {
    match ReadEntry(a)
    case End => Ok(Layout([], a))
    case Corrupt(e) => Err(e)
    case Next(e, rem) =>
      match Walk(rem)
      case Err(err) => Err(err)
      case Ok(l) =>
        Ok(Layout([e] + l.entries, l.tail))
  }

  /** The walk loses nothing: laying its entries and tail end to end gives back the archive. */
  lemma {:induction false} WalkLossless(a: seq<byte>)
    requires Walk(a).Ok?
    ensures Flatten(Walk(a).value) == a
    decreases |a|
  {
    match ReadEntry(a)
    case End =>
    case Next(e, rem) =>
      WalkLossless(rem);
      FlattenCons(e, Walk(rem).value);
  }

  /**
    An entry as a well-formed archive writer lays it out: a full header block whose
    fields the entry holds, followed by every byte of its payload region.
  */
  predicate Complete(e: Entry) {
    WellFormed(e) && |e.header| == BLOCK && e.Intact()
  }

  /**
    The converse of `WalkLossless`: complete entries followed by a terminator are walked
    back exactly, so the walk succeeds on every such archive, whatever its length.
  */
  lemma {:induction false} WalkOfLayout(l: Layout)
    requires forall i :: 0 <= i < |l.entries| ==> Complete(l.entries[i])
    requires IsTerminator(l.tail)
    ensures Walk(Flatten(l)) == Ok(l)
    decreases |l.entries|
  {
    if |l.entries| == 0 {
      WalkOfTerminator(l);
    } else {
      var rest := Layout(l.entries[1..], l.tail);
      WalkOfLayout(rest);
      WalkCompleteCons(l, rest);
    }
  }

  /** Reading complete entries followed by anything yields the first entry, then the rest. */
  lemma ReadCompleteFirst(es: seq<Entry>, b: seq<byte>)
    requires |es| > 0 && Complete(es[0])
    ensures ReadEntry(FlattenEntries(es) + b) == Next(es[0], FlattenEntries(es[1..]) + b)
  {
    FlattenEntriesFirst(es, b);
    ReadFullEntry(es[0], es[0].payload, FlattenEntries(es[1..]) + b);
  }

  /** The bytes of entries followed by `b`, with the first entry taken apart. */
  lemma FlattenEntriesFirst(es: seq<Entry>, b: seq<byte>)
    requires |es| > 0
    ensures FlattenEntries(es) + b == es[0].header + es[0].payload + (FlattenEntries(es[1..]) + b)
  {
  }

  /** A layout without entries is walked back from its terminator alone. */
  lemma WalkOfTerminator(l: Layout)
    requires |l.entries| == 0 && IsTerminator(l.tail)
    ensures Walk(Flatten(l)) == Ok(l)
  {
    assert Flatten(l) == l.tail;
  }

  /** One walk step over a complete first entry, in front of bytes that walk to the rest. */
  lemma WalkCompleteCons(l: Layout, rest: Layout)
    requires |l.entries| > 0 && Complete(l.entries[0])
    requires rest == Layout(l.entries[1..], l.tail) && Walk(Flatten(rest)) == Ok(rest)
    ensures Walk(Flatten(l)) == Ok(l)
  {
    var e := l.entries[0];
    assert l.entries == [e] + rest.entries;
    FlattenCons(e, rest);
    ReadFullEntry(e, e.payload, Flatten(rest));
  }

  /** Every entry the walk yields was decoded from a non-terminator header block. */
  lemma {:induction false} WalkWellFormed(a: seq<byte>)
    requires Walk(a).Ok?
    ensures forall i :: 0 <= i < |Walk(a).value.entries| ==> WellFormed(Walk(a).value.entries[i])
    decreases |a|
  {
    match ReadEntry(a)
    case End =>
    case Next(e, rem) =>
      WalkWellFormed(rem);
  }

  /** The block accounting of every walked entry. */
  lemma WalkShaped(a: seq<byte>)
    requires Walk(a).Ok?
    ensures forall i :: 0 <= i < |Walk(a).value.entries| ==> Shaped(Walk(a).value.entries[i])
  {
    WalkWellFormed(a);
  }
}

=== FILE: bytes.dfy ===
/** Byte strings and the small facts about them that the archive code relies on. */
module Bytes {

  type byte = bv8

  function Min(a: nat, b: nat): nat {
    if a <= b then a else b
  }

  /** `n` zero bytes: Python's `b"\x00" * n`. */
  function Zeros(n: nat): (z: seq<byte>)
    ensures |z| == n
    ensures forall k :: 0 <= k < n ==> z[k] == 0
  {
    seq(n, _ => 0)
  }

  /** Python's `s[lo:hi]` on bytes: both ends are clamped to the length of `s`. */
  function Slice(s: seq<byte>, lo: nat, hi: nat): (r: seq<byte>)
    ensures lo <= hi ==> |r| <= hi - lo
    ensures hi <= |s| && lo <= hi ==> r == s[lo..hi]
    ensures hi <= lo ==> r == []
    ensures lo <= |s| < hi ==> r == s[lo..]
    ensures |s| <= lo ==> r == []
  {
    var a := Min(lo, |s|);
    var b := Min(hi, |s|);
    if a <= b then s[a..b] else []
  }
}

=== FILE: consistency_checker.dfy ===
/**
  The check-and-fix pass over the archive's members: a regular file with no staged
  replacement, or with one of exactly its size, needs nothing; one whose replacement
  has another size gets that replacement re-encoded in place to the member's size,
  using the stock image's geometry (or the default when probing gives nothing).
*/
module ConsistencyChecker {
  import opened Bytes
  import opened Wrappers
  import opened Staging
  import opened Reencoder

  /** One archive member as the pass sees it; `stock` is its original payload. */
  datatype Member = Member(name: Name, size: nat, isFile: bool, stock: seq<byte>)

  /** The external geometry probe: "WIDTHxHEIGHT" of an image, or `None` when it fails. */
  type Probe = seq<byte> -> Option<string>

  const DEFAULT_GEOMETRY: string := "1248x584"

  /** The output geometry: the probed one, unless the probe failed or printed nothing. */
  function Geometry(m: Member, probe: Probe): (g: string)
    ensures g != ""
    ensures probe(m.stock).Some? && probe(m.stock).value != "" ==> g == probe(m.stock).value
    ensures g != DEFAULT_GEOMETRY ==> probe(m.stock) == Some(g)
  {
    var probed := probe(m.stock);
    if probed.Some? && probed.value != "" then probed.value else DEFAULT_GEOMETRY
  }

  /** What the pass did for one member. */
  datatype Action =
    | NotRegular       // directories, links and the like are passed over
    | NoReplacement    // nothing staged under this name
    | Compliant        // the staged file already has the member's size
    | Repaired         // re-encoded and padded to the member's size, written in place
    | RepairFailed     // no quality fits; the staged file is left as it was

  /** The outcome for one member: the action and the staging directory afterwards. */
  datatype Fix = Fix(action: Action, reps: Replacements)

  /** The replacement exists and its size differs from the member's. */
  predicate Mismatched(m: Member, reps: Replacements) {
    m.isFile && m.name in reps && |reps[m.name]| != m.size
  }

  /**
    One member. Only a mismatched replacement is touched, and then only when the
    re-encoder succeeds; the written file then has exactly the member's size.
  */
  function FixEntry(m: Member, reps: Replacements, codec: Codec, probe: Probe): (f: Fix)
    ensures f.reps.Keys == reps.Keys
    ensures forall n :: n in reps && n != m.name ==> f.reps[n] == reps[n]
    ensures f.action == Repaired ==> m.name in f.reps && |f.reps[m.name]| == m.size
    ensures f.action != Repaired ==> f.reps == reps
    ensures f.action == Repaired || f.action == RepairFailed <==> Mismatched(m, reps)
    ensures f.action == Repaired <==>
              Mismatched(m, reps) && Reencode(codec, reps[m.name], Geometry(m, probe), m.size).Some?
    ensures f.action == Repaired ==>
              f.reps[m.name] == Reencode(codec, reps[m.name], Geometry(m, probe), m.size).value
    ensures f.action == RepairFailed ==> Reencode(codec, reps[m.name], Geometry(m, probe), m.size).None?
    ensures f.action == Compliant <==> m.isFile && m.name in reps && |reps[m.name]| == m.size
  {
    if !m.isFile then Fix(NotRegular, reps)
    else if m.name !in reps then Fix(NoReplacement, reps)
    else if |reps[m.name]| == m.size then Fix(Compliant, reps)
    else match Reencode(codec, reps[m.name], Geometry(m, probe), m.size)
      case Some(data) => Fix(Repaired, reps[m.name := data])
      case None => Fix(RepairFailed, reps)
  }

  /** The actions taken, member by member, and the staging directory at the end. */
  datatype Run = Run(actions: seq<Action>, reps: Replacements)

  /** No two regular-file members share a name. */
  predicate UniqueFileNames(ms: seq<Member>) {
    forall i, j :: 0 <= i < j < |ms| && ms[i].isFile && ms[j].isFile ==> ms[i].name != ms[j].name
  }

  /** No regular-file member is called `n`. */
  predicate NoFileNamed(ms: seq<Member>, n: Name) {
    forall i :: 0 <= i < |ms| && ms[i].isFile ==> ms[i].name != n
  }

  /**
    The whole pass, member by member in archive order; a repair is visible to the
    members after it, since the staged file is rewritten in place.
  */
  function FixImages(ms: seq<Member>, reps: Replacements, codec: Codec, probe: Probe): (run: Run)
    ensures |run.actions| == |ms|
    ensures run.reps.Keys == reps.Keys
    ensures forall n :: n in reps && NoFileNamed(ms, n) ==> run.reps[n] == reps[n]
    decreases |ms|
  {
    if |ms| == 0 then Run([], reps)
    else
      var f := FixEntry(ms[0], reps, codec, probe);
      var rest := FixImages(ms[1..], f.reps, codec, probe);
      Run([f.action] + rest.actions, rest.reps)
  }

  /** Every regular member whose replacement is present has one of its own size. */
  predicate AllCompliant(ms: seq<Member>, reps: Replacements) {
    forall i :: 0 <= i < |ms| && ms[i].isFile && ms[i].name in reps ==> |reps[ms[i].name]| == ms[i].size
  }

  /** Over a compliant staging directory the pass re-encodes nothing and writes nothing. */
  lemma {:induction false} FixImagesCompliantIsNoop(ms: seq<Member>, reps: Replacements, codec: Codec, probe: Probe)
    requires AllCompliant(ms, reps)
    ensures FixImages(ms, reps, codec, probe).reps == reps
    ensures forall i :: 0 <= i < |ms| ==>
              FixImages(ms, reps, codec, probe).actions[i] != Repaired
              && FixImages(ms, reps, codec, probe).actions[i] != RepairFailed
    decreases |ms|
  {
    if |ms| > 0 {
      assert AllCompliant(ms[1..], reps) by {
        forall i | 0 <= i < |ms[1..]| && ms[1..][i].isFile && ms[1..][i].name in reps
          ensures |reps[ms[1..][i].name]| == ms[1..][i].size
        {
          assert ms[1..][i] == ms[i + 1];
        }
      }
      FixImagesCompliantIsNoop(ms[1..], reps, codec, probe);
    }
  }

  /**
    After one pass with distinct member names, each regular member's replacement (if
    any) has the member's size, unless its repair failed, in which case it is the file
    that was staged to begin with.
  */
  lemma {:induction false} FixImagesRepairsOrReports(ms: seq<Member>, reps: Replacements, codec: Codec, probe: Probe)
    requires UniqueFileNames(ms)
    ensures forall i :: 0 <= i < |ms| && ms[i].isFile && ms[i].name in reps ==>
              |FixImages(ms, reps, codec, probe).reps[ms[i].name]| == ms[i].size
              || (FixImages(ms, reps, codec, probe).actions[i] == RepairFailed
                  && FixImages(ms, reps, codec, probe).reps[ms[i].name] == reps[ms[i].name])
    decreases |ms|
  {
    if |ms| > 0 {
      var m := ms[0];
      var f := FixEntry(m, reps, codec, probe);
      var run := FixImages(ms, reps, codec, probe);
      var rest := FixImages(ms[1..], f.reps, codec, probe);
      UniqueTail(ms);
      FixImagesRepairsOrReports(ms[1..], f.reps, codec, probe);
      forall i | 0 <= i < |ms| && ms[i].isFile && ms[i].name in reps
        ensures |run.reps[ms[i].name]| == ms[i].size
                || (run.actions[i] == RepairFailed && run.reps[ms[i].name] == reps[ms[i].name])
      {
        if i == 0 {
          assert run.reps[m.name] == f.reps[m.name];
        } else {
          assert ms[1..][i - 1] == ms[i];
          assert run.actions[i] == rest.actions[i - 1];
          if m.isFile {
            assert ms[i].name != m.name;
          }
        }
      }
    }
  }

  /** The tail of a list of members with distinct file names has distinct file names, none the head's. */
  lemma UniqueTail(ms: seq<Member>)
    requires |ms| > 0 && UniqueFileNames(ms)
    ensures UniqueFileNames(ms[1..])
    ensures ms[0].isFile ==> NoFileNamed(ms[1..], ms[0].name)
  {
    forall i | 0 <= i < |ms[1..]| && ms[1..][i].isFile && ms[0].isFile
      ensures ms[1..][i].name != ms[0].name
    {
      assert ms[1..][i] == ms[i + 1];
    }
  }

  /**
    Running the pass a second time, with nothing changed in between, writes nothing:
    compliant and repaired files are now the right size, and a failed repair fails
    again on the same input because the encoder is deterministic.
  */
  lemma {:induction false} FixImagesSecondRunWritesNothing(ms: seq<Member>, reps: Replacements, codec: Codec, probe: Probe)
    requires UniqueFileNames(ms)
    ensures FixImages(ms, FixImages(ms, reps, codec, probe).reps, codec, probe).reps
         == FixImages(ms, reps, codec, probe).reps
    ensures forall i :: 0 <= i < |ms| ==>
              FixImages(ms, FixImages(ms, reps, codec, probe).reps, codec, probe).actions[i] != Repaired
    decreases |ms|
  {
    if |ms| > 0 {
      var m := ms[0];
      var f := FixEntry(m, reps, codec, probe);
      var first := FixImages(ms, reps, codec, probe);
      assert first.reps == FixImages(ms[1..], f.reps, codec, probe).reps;
      UniqueTail(ms);
      var g := FixEntry(m, first.reps, codec, probe);
      if m.isFile && m.name in reps {
        assert first.reps[m.name] == f.reps[m.name];
      }
      assert g.reps == first.reps && g.action != Repaired;
      FixImagesSecondRunWritesNothing(ms[1..], f.reps, codec, probe);
      var second := FixImages(ms, first.reps, codec, probe);
      var second' := FixImages(ms[1..], g.reps, codec, probe);
      assert second.actions == [g.action] + second'.actions;
    }
  }
}

=== FILE: patch_assembler.dfy ===
/**
  The patch pass: copy the archive block by block, and for an entry whose name has a
  replacement of exactly the declared size, write the replacement zero-padded to the
  block boundary in place of the payload region. Headers, unmatched payloads, the
  terminator block and everything after it are copied verbatim.
*/
module PatchAssembler {
  import opened Bytes
  import opened Wrappers
  import opened TarHeader
  import opened ArchiveWalker
  import opened Staging

  /** The replacement is used only when one exists and its size equals the declared size. */
  predicate Applies(e: Entry, reps: Replacements) {
    e.name in reps && |reps[e.name]| == e.size
  }

  /** What the pass writes for an entry's payload region. */
  function Region(e: Entry, reps: Replacements): (r: seq<byte>)
    ensures Applies(e, reps) ==> |r| == BlockBytes(BlockCount(e.size))
    ensures Applies(e, reps) ==> r[..e.size] == reps[e.name]
    ensures Applies(e, reps) ==> forall k :: e.size <= k < |r| ==> r[k] == 0
    ensures !Applies(e, reps) ==> r == e.payload
  {
    if Applies(e, reps) then reps[e.name] + Zeros(PadCount(e.size)) else e.payload
  }

  /**
    The pass itself, in the shape of the read loop: stop at the terminator and copy the
    rest; abort on an undecodable header; otherwise write the header, then the payload
    region (substituted or not), then carry on after it.
  */
  function Patch(a: seq<byte>, reps: Replacements): Result<seq<byte>, HeaderError>
    decreases |a|
  {
    match ReadEntry(a)
    case End => Ok(a)
    case Corrupt(err) => Err(err)
    case Next(e, rem) =>
      match Patch(rem, reps)
      case Err(err) => Err(err)
      case Ok(out) => Ok(e.header + Region(e, reps) + out)
  }

  /** The same output described over the walk's layout. */
  function AssembleEntries(es: seq<Entry>, reps: Replacements): seq<byte> {
    if |es| == 0 then [] else es[0].header + Region(es[0], reps) + AssembleEntries(es[1..], reps)
  }

  function Assemble(l: Layout, reps: Replacements): seq<byte> {
    AssembleEntries(l.entries, reps) + l.tail
  }

  lemma AssembleCons(e: Entry, l: Layout, reps: Replacements)
    ensures Assemble(Layout([e] + l.entries, l.tail), reps) == e.header + Region(e, reps) + Assemble(l, reps)
  {
    assert ([e] + l.entries)[1..] == l.entries;
  }

  /**
    The pass and the walk agree: the pass fails exactly when the walk meets a corrupt
    header (whatever the replacements are), and otherwise writes each walked entry's
    header and region in order, then the tail.
  */
  lemma {:induction false} PatchFollowsWalk(a: seq<byte>, reps: Replacements)
    ensures Walk(a).Err? ==> Patch(a, reps) == Err(Walk(a).error)
    ensures Walk(a).Ok? ==> Patch(a, reps) == Ok(Assemble(Walk(a).value, reps))
    decreases |a|
  {
    match ReadEntry(a)
    case End =>
      assert Assemble(Layout([], a), reps) == a;
    case Corrupt(_) =>
    case Next(e, rem) =>
      PatchFollowsWalk(rem, reps);
      if Walk(rem).Ok? {
        AssembleCons(e, Walk(rem).value, reps);
      }
  }

  /**
    An archive of complete entries and a terminator is always patched: the pass writes
    each entry's header and region, then the tail, whatever its length.
  */
  lemma PatchOfLayout(l: Layout, reps: Replacements)
    requires forall i :: 0 <= i < |l.entries| ==> Complete(l.entries[i])
    requires IsTerminator(l.tail)
    ensures Patch(Flatten(l), reps) == Ok(Assemble(l, reps))
  {
    WalkOfLayout(l);
    PatchFollowsWalk(Flatten(l), reps);
  }

  /**
    A header whose size field holds a byte that is not an octal digit, whitespace or NUL
    aborts the whole pass, wherever it sits: after any number of complete entries, the
    pass fails instead of producing an archive with a guessed block count.
  */
  lemma {:induction false} PatchRejectsCorruptHeader(es: seq<Entry>, b: seq<byte>, reps: Replacements, k: nat)
    requires forall i :: 0 <= i < |es| ==> Complete(es[i])
    requires SIZE_OFFSET <= k < SIZE_OFFSET + SIZE_LEN && k < |b|
    requires !IsOctalDigit(b[k]) && !IsSpace(b[k]) && !IsNul(b[k])
    ensures Patch(FlattenEntries(es) + b, reps).Err?
    decreases |es|
  {
    if |es| == 0 {
      assert FlattenEntries(es) + b == b;
      PatchFailsAtCorruptHeader(b, reps, k);
    } else {
      PatchRejectsCorruptHeader(es[1..], b, reps, k);
      PatchCompleteConsFails(es, b, reps);
    }
  }

  /** A corrupt first header is the first thing the pass reads, and it aborts the pass. */
  lemma PatchFailsAtCorruptHeader(b: seq<byte>, reps: Replacements, k: nat)
    requires SIZE_OFFSET <= k < SIZE_OFFSET + SIZE_LEN && k < |b|
    requires !IsOctalDigit(b[k]) && !IsSpace(b[k]) && !IsNul(b[k])
    ensures Patch(b, reps).Err?
  {
    ReadCorruptHeader(b, k);
  }

  /** A failure after a complete first entry is a failure of the whole pass. */
  lemma PatchCompleteConsFails(es: seq<Entry>, b: seq<byte>, reps: Replacements)
    requires |es| > 0 && Complete(es[0]) && Patch(FlattenEntries(es[1..]) + b, reps).Err?
    ensures Patch(FlattenEntries(es) + b, reps).Err?
  {
    ReadCompleteFirst(es, b);
  }

  // ---------------------------------------------------------------------------
  // Identity: nothing to substitute means nothing changes
  // ---------------------------------------------------------------------------

  /** No entry of the layout takes its replacement. */
  predicate NoneApplies(l: Layout, reps: Replacements) {
    forall i :: 0 <= i < |l.entries| ==> !Applies(l.entries[i], reps)
  }

  lemma {:induction false} AssembleUnsubstituted(es: seq<Entry>, reps: Replacements)
    requires forall i :: 0 <= i < |es| ==> !Applies(es[i], reps)
    ensures AssembleEntries(es, reps) == FlattenEntries(es)
    decreases |es|
  {
    if |es| > 0 {
      AssembleUnsubstituted(es[1..], reps);
    }
  }

  /**
    When no entry has a same-sized replacement, the output is the input byte for byte:
    headers, payloads, the terminator and the trailing bytes.
  */
  lemma PatchIdentity(a: seq<byte>, reps: Replacements)
    requires Walk(a).Ok? && NoneApplies(Walk(a).value, reps)
    ensures Patch(a, reps) == Ok(a)
  {
    PatchFollowsWalk(a, reps);
    AssembleUnsubstituted(Walk(a).value.entries, reps);
    WalkLossless(a);
  }

  /** With an empty replacement set the pass either copies the archive or reports its corrupt header. */
  lemma PatchWithoutReplacements(a: seq<byte>)
    ensures Walk(a).Ok? ==> Patch(a, map[]) == Ok(a)
    ensures Walk(a).Err? ==> Patch(a, map[]) == Err(Walk(a).error)
  {
    PatchFollowsWalk(a, map[]);
    if Walk(a).Ok? {
      PatchIdentity(a, map[]);
    }
  }

  // ---------------------------------------------------------------------------
  // Length
  // ---------------------------------------------------------------------------

  lemma {:induction false} AssembleLength(es: seq<Entry>, reps: Replacements)
    requires forall i :: 0 <= i < |es| ==> Shaped(es[i])
    ensures |AssembleEntries(es, reps)| >= |FlattenEntries(es)|
    ensures (forall i :: 0 <= i < |es| ==> es[i].Intact()) ==> |AssembleEntries(es, reps)| == |FlattenEntries(es)|
    decreases |es|
  {
    if |es| > 0 {
      AssembleLength(es[1..], reps);
    }
  }

  /**
    The output is never shorter than the input, and it is exactly as long when every
    payload region is fully present: a substituted region is `size + pad` bytes, which
    is the `blocks * 512` bytes it replaces.
  */
  lemma PatchLength(a: seq<byte>, reps: Replacements)
    requires Walk(a).Ok?
    ensures Patch(a, reps).Ok?
    ensures |Patch(a, reps).value| >= |a|
    ensures AllIntact(Walk(a).value) ==> |Patch(a, reps).value| == |a|
  {
    PatchFollowsWalk(a, reps);
    WalkLossless(a);
    WalkShaped(a);
    AssembleLength(Walk(a).value.entries, reps);
  }

  /** The terminator block and whatever follows it end the output unchanged. */
  lemma PatchCopiesTail(a: seq<byte>, reps: Replacements)
    requires Walk(a).Ok?
    ensures Patch(a, reps).Ok?
    ensures IsTerminator(Walk(a).value.tail)
    ensures |Patch(a, reps).value| >= |Walk(a).value.tail|
    ensures Patch(a, reps).value[|Patch(a, reps).value| - |Walk(a).value.tail|..] == Walk(a).value.tail
  {
    PatchFollowsWalk(a, reps);
  }

  // ---------------------------------------------------------------------------
  // Only matched payload regions change
  // ---------------------------------------------------------------------------

  function Marks(n: nat, b: bool): (m: seq<bool>)
    ensures |m| == n && forall k :: 0 <= k < n ==> m[k] == b
  {
    seq(n, _ => b)
  }

  /** One flag per input byte: set exactly on the payload regions of entries that take their replacement. */
  function MaskEntries(es: seq<Entry>, reps: Replacements): seq<bool> {
    if |es| == 0 then []
    else Marks(|es[0].header|, false) + Marks(|es[0].payload|, Applies(es[0], reps)) + MaskEntries(es[1..], reps)
  }

  function ChangedMask(l: Layout, reps: Replacements): seq<bool> {
    MaskEntries(l.entries, reps) + Marks(|l.tail|, false)
  }

  lemma {:induction false} AssembleDiffersOnlyInMask(es: seq<Entry>, reps: Replacements)
    requires forall i :: 0 <= i < |es| ==> Shaped(es[i]) && es[i].Intact()
    ensures |MaskEntries(es, reps)| == |FlattenEntries(es)| == |AssembleEntries(es, reps)|
    ensures forall k :: 0 <= k < |FlattenEntries(es)| && !MaskEntries(es, reps)[k] ==>
              AssembleEntries(es, reps)[k] == FlattenEntries(es)[k]
    decreases |es|
  {
    if |es| > 0 {
      var e := es[0];
      AssembleDiffersOnlyInMask(es[1..], reps);
      var h, p, r := |e.header|, |e.payload|, Region(e, reps);
      var f, x, m := FlattenEntries(es), AssembleEntries(es, reps), MaskEntries(es, reps);
      var f', x', m' := FlattenEntries(es[1..]), AssembleEntries(es[1..], reps), MaskEntries(es[1..], reps);
      assert |r| == p;
      forall k | 0 <= k < |f| && !m[k]
        ensures x[k] == f[k]
      {
        if k < h {
          assert x[k] == e.header[k] == f[k];
        } else if k < h + p {
          assert !Applies(e, reps);
          assert x[k] == r[k - h] == e.payload[k - h] == f[k];
        } else {
          assert m[k] == m'[k - h - p];
          assert x[k] == x'[k - h - p] && f[k] == f'[k - h - p];
        }
      }
    }
  }

  /**
    For an archive whose payload regions are all present, a byte of the output differs
    from the input byte at the same offset only inside the payload region of an entry
    whose replacement was taken; header blocks, other payloads and the tail are equal.
  */
  lemma PatchChangesOnlyMatchedPayloads(a: seq<byte>, reps: Replacements)
    requires Walk(a).Ok? && AllIntact(Walk(a).value)
    ensures Patch(a, reps).Ok?
    ensures |ChangedMask(Walk(a).value, reps)| == |a| == |Patch(a, reps).value|
    ensures forall k :: 0 <= k < |a| && !ChangedMask(Walk(a).value, reps)[k] ==> Patch(a, reps).value[k] == a[k]
  {
    PatchFollowsWalk(a, reps);
    WalkLossless(a);
    WalkShaped(a);
    AssembleDiffersOnlyInChangedMask(Walk(a).value, reps);
  }

  lemma AssembleDiffersOnlyInChangedMask(l: Layout, reps: Replacements)
    requires AllIntact(l) && forall i :: 0 <= i < |l.entries| ==> Shaped(l.entries[i])
    ensures |ChangedMask(l, reps)| == |Flatten(l)| == |Assemble(l, reps)|
    ensures forall k :: 0 <= k < |Flatten(l)| && !ChangedMask(l, reps)[k] ==> Assemble(l, reps)[k] == Flatten(l)[k]
  {
    AssembleDiffersOnlyInMask(l.entries, reps);
    var n := |FlattenEntries(l.entries)|;
    forall k | 0 <= k < |Flatten(l)| && !ChangedMask(l, reps)[k]
      ensures Assemble(l, reps)[k] == Flatten(l)[k]
    {
      if k >= n {
        assert Assemble(l, reps)[k] == l.tail[k - n] == Flatten(l)[k];
      }
    }
  }

  // ---------------------------------------------------------------------------
  // The output walks to the same entries, and patching twice changes nothing more
  // ---------------------------------------------------------------------------

  /** An entry as it stands in the output: same header, its written region as payload. */
  function Substitute(e: Entry, reps: Replacements): Entry {
    e.(payload := Region(e, reps))
  }

  function SubstituteEntries(es: seq<Entry>, reps: Replacements): (r: seq<Entry>)
    ensures |r| == |es| && forall i :: 0 <= i < |es| ==> r[i] == Substitute(es[i], reps)
  {
    seq(|es|, i requires 0 <= i < |es| => Substitute(es[i], reps))
  }

  function Substituted(l: Layout, reps: Replacements): Layout {
    Layout(SubstituteEntries(l.entries, reps), l.tail)
  }

  /** Reading a well-formed header followed by a full region of the right length gives back that entry. */
  lemma ReadRebuiltEntry(e: Entry, body: seq<byte>, out: seq<byte>)
    requires WellFormed(e) && |body| == BlockBytes(e.blocks)
    requires |e.header| < BLOCK ==> body == [] && out == []
    ensures ReadEntry(e.header + body + out) == Next(e.(payload := body), out)
  {
    if |e.header| < BLOCK {
      ReadShortEntry(e);
      assert e.header + body + out == e.header;
    } else {
      ReadFullEntry(e, body, out);
    }
  }

  lemma ReadShortEntry(e: Entry)
    requires WellFormed(e) && |e.header| < BLOCK && e.blocks == 0
    ensures ReadEntry(e.header) == Next(e.(payload := []), [])
  {
    var x := e.header;
    assert x[..Min(BLOCK, |x|)] == x;
    assert x[|x|..] == [];
  }

  /** Reading the written header and region gives back the same entry, now holding its region. */
  lemma ReadSubstitutedEntry(a: seq<byte>, reps: Replacements, out: seq<byte>)
    requires ReadEntry(a).Next? && ReadEntry(a).entry.Intact()
    requires |ReadEntry(a).entry.header| < BLOCK ==> out == []
    ensures ReadEntry(ReadEntry(a).entry.header + Region(ReadEntry(a).entry, reps) + out)
         == Next(Substitute(ReadEntry(a).entry, reps), out)
  {
    var e := ReadEntry(a).entry;
    var r := Region(e, reps);
    assert |r| == BlockBytes(e.blocks);
    if |e.header| < BLOCK {
      assert e.blocks == 0;
    }
    ReadRebuiltEntry(e, r, out);
  }

  /**
    Walking the output of the pass finds the same entries with the same headers and
    boundaries, each holding the region the pass wrote, and the same tail: a consumer
    that locates entries from the original layout reads the substituted data.
  */
  lemma {:induction false} PatchKeepsLayout(a: seq<byte>, reps: Replacements)
    requires Walk(a).Ok? && AllIntact(Walk(a).value)
    ensures Patch(a, reps).Ok?
    ensures Walk(Patch(a, reps).value) == Ok(Substituted(Walk(a).value, reps))
    decreases |a|
  {
    match ReadEntry(a)
    case End =>
    case Next(e, rem) =>
      WalkIntactStep(a);
      PatchKeepsLayout(rem, reps);
      var out := Patch(rem, reps).value;
      ReadSubstitutedEntry(a, reps, out);
      SubstitutedCons(e, Walk(rem).value, reps);
  }

  /** The entry in front and the rest of an intact walk are intact. */
  lemma WalkIntactStep(a: seq<byte>)
    requires ReadEntry(a).Next? && Walk(a).Ok? && AllIntact(Walk(a).value)
    ensures ReadEntry(a).entry.Intact()
    ensures Walk(ReadEntry(a).remainder).Ok? && AllIntact(Walk(ReadEntry(a).remainder).value)
    ensures |ReadEntry(a).entry.header| < BLOCK ==> ReadEntry(a).remainder == []
  {
    var l := Walk(a).value;
    var lr := Walk(ReadEntry(a).remainder).value;
    assert l.entries[0] == ReadEntry(a).entry;
    forall i | 0 <= i < |lr.entries|
      ensures lr.entries[i].Intact()
    {
      assert lr.entries[i] == l.entries[i + 1];
    }
  }

  lemma SubstitutedCons(e: Entry, l: Layout, reps: Replacements)
    ensures Substituted(Layout([e] + l.entries, l.tail), reps)
         == Layout([Substitute(e, reps)] + Substituted(l, reps).entries, l.tail)
  {
    assert SubstituteEntries([e] + l.entries, reps) == [Substitute(e, reps)] + SubstituteEntries(l.entries, reps);
  }

  lemma {:induction false} AssembleSubstituted(es: seq<Entry>, reps: Replacements)
    ensures AssembleEntries(SubstituteEntries(es, reps), reps) == AssembleEntries(es, reps)
    decreases |es|
  {
    if |es| > 0 {
      assert SubstituteEntries(es, reps)[1..] == SubstituteEntries(es[1..], reps);
      AssembleSubstituted(es[1..], reps);
    }
  }

  /** Patching the patched archive with the same replacements gives the same bytes again. */
  lemma PatchIdempotent(a: seq<byte>, reps: Replacements)
    requires Walk(a).Ok? && AllIntact(Walk(a).value)
    ensures Patch(a, reps).Ok?
    ensures Patch(Patch(a, reps).value, reps) == Patch(a, reps)
  {
    var l := Walk(a).value;
    PatchKeepsLayout(a, reps);
    PatchFollowsWalk(a, reps);
    PatchFollowsWalk(Patch(a, reps).value, reps);
    AssembleSubstituted(l.entries, reps);
  }
}

=== FILE: reencoder.dfy ===
/**
  The byte-budget re-encoder: sweep the encoder quality down from 85 in steps of 5
  while it stays above 5, take the first encoding that is no larger than the target,
  and zero-pad it to exactly the target size. The encoder is a black box with no
  assumed relation between quality and output size.
*/
module Reencoder {
  import opened Bytes
  import opened Wrappers

  /**
    The external encoder run on (source image, output geometry, quality): the encoded
    bytes, or `None` when the encoder invocation fails.
  */
  type Codec = (seq<byte>, string, int) -> Option<seq<byte>>

  const START_QUALITY: nat := 85
  const QUALITY_STEP: nat := 5
  const QUALITY_FLOOR: nat := 5
  /** 85, 80, ..., 10: sixteen qualities are tried at most. */
  const MAX_ATTEMPTS: nat := 16

  /** The qualities the sweep visits: 85 down to 10 in steps of 5. */
  predicate Tried(q: int) {
    QUALITY_FLOOR < q <= START_QUALITY && (START_QUALITY - q) % QUALITY_STEP == 0
  }

  /** The encoder produced output and it is within the byte budget. */
  predicate Fits(out: Option<seq<byte>>, target: nat) {
    out.Some? && |out.value| <= target
  }

  /** `data` followed by zero bytes up to exactly `target` bytes. */
  function Pad(data: seq<byte>, target: nat): (r: seq<byte>)
    requires |data| <= target
    ensures |r| == target && r[..|data|] == data
    ensures forall k :: |data| <= k < target ==> r[k] == 0
  {
    data + Zeros(target - |data|)
  }

  /**
    The highest quality at or below `q` on the sweep whose encoding fits the budget;
    every quality the sweep passes over on the way did not fit, whether the encoder
    failed or its output was too large.
  */
  function FirstFit(codec: Codec, src: seq<byte>, geometry: string, target: nat, q: int): (r: Option<int>)
    requires q <= START_QUALITY && (START_QUALITY - q) % QUALITY_STEP == 0
    ensures r.Some? ==> Tried(r.value) && r.value <= q && Fits(codec(src, geometry, r.value), target)
    ensures r.Some? ==> forall q' :: Tried(q') && r.value < q' <= q ==> !Fits(codec(src, geometry, q'), target)
    ensures r.None? ==> forall q' :: Tried(q') && q' <= q ==> !Fits(codec(src, geometry, q'), target)
    decreases q
  {
    if q <= QUALITY_FLOOR then None
    else if Fits(codec(src, geometry, q), target) then Some(q)
    else FirstFit(codec, src, geometry, target, q - QUALITY_STEP)
  }

  /** The bytes the re-encoder writes to the destination, or `None` when no quality fits (nothing is written). */
  function Reencode(codec: Codec, src: seq<byte>, geometry: string, target: nat): (r: Option<seq<byte>>)
    ensures r.Some? ==> |r.value| == target
    ensures r.None? <==> forall q :: Tried(q) ==> !Fits(codec(src, geometry, q), target)
    ensures r.Some? ==> exists q :: Tried(q) && BestFit(codec, src, geometry, target, q)
                                  && r.value == Pad(codec(src, geometry, q).value, target)
  {
    match FirstFit(codec, src, geometry, target, START_QUALITY)
    case None => None
    case Some(q) => Some(Pad(codec(src, geometry, q).value, target))
  }

  /** `q` fits, and no higher quality on the sweep does. */
  ghost predicate BestFit(codec: Codec, src: seq<byte>, geometry: string, target: nat, q: int) {
    && Fits(codec(src, geometry, q), target)
    && forall q' :: Tried(q') && q < q' ==> !Fits(codec(src, geometry, q'), target)
  }

  /**
    The sweep as the source runs it: an encoder failure and an over-budget result both
    just move to the next lower quality. Returns what is written to the destination and
    how many times the encoder was invoked.
  */
  method ReencodeToTarget(codec: Codec, src: seq<byte>, geometry: string, target: nat)
    returns (written: Option<seq<byte>>, attempts: nat)
    ensures written == Reencode(codec, src, geometry, target)
    ensures attempts <= MAX_ATTEMPTS
    ensures written.None? ==> attempts == MAX_ATTEMPTS
    ensures written.Some? ==>
      attempts == (START_QUALITY - FirstFit(codec, src, geometry, target, START_QUALITY).value) / QUALITY_STEP + 1
  {
    var quality: int := START_QUALITY;
    attempts := 0;
    while quality > QUALITY_FLOOR
      invariant QUALITY_FLOOR <= quality <= START_QUALITY && (START_QUALITY - quality) % QUALITY_STEP == 0
      invariant attempts == (START_QUALITY - quality) / QUALITY_STEP
      invariant FirstFit(codec, src, geometry, target, START_QUALITY) == FirstFit(codec, src, geometry, target, quality)
      decreases quality
    {
      var out := codec(src, geometry, quality);
      attempts := attempts + 1;
      if out.None? {
        quality := quality - QUALITY_STEP;
        continue;
      }
      if |out.value| <= target {
        written := Some(out.value + Zeros(target - |out.value|));
        return;
      }
      quality := quality - QUALITY_STEP;
    }
    written := None;
  }
}

=== FILE: staging.dfy ===
/** The replacement staging directory: one candidate payload per entry name. */
module Staging {
  import opened Bytes

  /** An entry name as stored in the header (trailing NULs removed). */
  type Name = seq<byte>

  /** The staged replacement files, by entry name. */
  type Replacements = map<Name, seq<byte>>
}

=== FILE: tar_header.dfy ===
/**
  The two fields of an entry header in the POSIX.1 ustar Interchange Format that the
  patch pass reads: the 100-byte name at offset 0 and the 12-byte octal size at offset
  124, plus the 512-byte block accounting derived from the size.
*/
module TarHeader {
  import opened Bytes
  import opened Wrappers

  const BLOCK: nat := 512
  const NAME_OFFSET: nat := 0
  const NAME_LEN: nat := 100
  const SIZE_OFFSET: nat := 124
  const SIZE_LEN: nat := 12

  /** Why a header could not be decoded: the size field, after trimming, is not octal. */
  datatype HeaderError = BadSizeField(field: seq<byte>)

  predicate IsNul(b: byte) {
    b == 0
  }

  /** The bytes Python's `str.strip()` removes from an ASCII string. */
  predicate IsSpace(b: byte) {
    b == 0x20 || (0x09 <= b <= 0x0D) || (0x1C <= b <= 0x1F)
  }

  /** The padding bytes that get trimmed from header fields. */
  datatype Padding = NulPadding | SpacePadding

  predicate IsPadding(b: byte, p: Padding) {
    match p
    case NulPadding => IsNul(b)
    case SpacePadding => IsSpace(b)
  }

  /** `s` with its longest suffix of padding removed (Python's `rstrip`). */
  function RStrip(s: seq<byte>, p: Padding): (r: seq<byte>)
    ensures |r| <= |s|
  {
    if |s| > 0 && IsPadding(s[|s| - 1], p) then RStrip(s[..|s| - 1], p) else s
  }

  /** `RStrip` keeps a prefix and drops exactly the trailing run of padding. */
  lemma {:induction false} RStripSplits(s: seq<byte>, p: Padding)
    ensures RStrip(s, p) == s[..|RStrip(s, p)|]
    ensures forall k :: |RStrip(s, p)| <= k < |s| ==> IsPadding(s[k], p)
    ensures |RStrip(s, p)| == 0 || !IsPadding(s[|RStrip(s, p)| - 1], p)
    decreases |s|
  {
    if |s| > 0 && IsPadding(s[|s| - 1], p) {
      RStripSplits(s[..|s| - 1], p);
    }
  }

  /** `s` with its longest prefix of padding removed (Python's `lstrip`). */
  function LStrip(s: seq<byte>, p: Padding): (r: seq<byte>)
    ensures |r| <= |s|
  {
    if |s| > 0 && IsPadding(s[0], p) then LStrip(s[1..], p) else s
  }

  /** `LStrip` keeps a suffix and drops exactly the leading run of padding. */
  lemma {:induction false} LStripSplits(s: seq<byte>, p: Padding)
    ensures LStrip(s, p) == s[|s| - |LStrip(s, p)|..]
    ensures forall k :: 0 <= k < |s| - |LStrip(s, p)| ==> IsPadding(s[k], p)
    ensures |LStrip(s, p)| == 0 || !IsPadding(s[|s| - |LStrip(s, p)|], p)
    decreases |s|
  {
    if |s| > 0 && IsPadding(s[0], p) {
      LStripSplits(s[1..], p);
      assert s[1..][|s| - 1 - |LStrip(s, p)|..] == s[|s| - |LStrip(s, p)|..];
    }
  }

  predicate IsOctalDigit(b: byte) {
    0x30 <= b <= 0x37
  }

  predicate AllOctal(s: seq<byte>) {
    forall k :: 0 <= k < |s| ==> IsOctalDigit(s[k])
  }

  /** The value 0..7 of an octal digit byte. */
  function DigitValue(b: byte): (v: nat)
    requires IsOctalDigit(b)
    ensures v < 8
  {
    (b - 0x30) as nat
  }

  /** The octal digit byte for 0..7; the inverse of `DigitValue`. */
  function DigitByte(v: nat): (b: byte)
    requires v < 8
    ensures IsOctalDigit(b) && DigitValue(b) == v
  {
    if v == 0 then 0x30 else if v == 1 then 0x31 else if v == 2 then 0x32
    else if v == 3 then 0x33 else if v == 4 then 0x34 else if v == 5 then 0x35
    else if v == 6 then 0x36 else 0x37
  }

  function Pow8(n: nat): (p: nat)
    ensures p >= 1
  {
    if n == 0 then 1 else 8 * Pow8(n - 1)
  }

  /** The number written by the octal digits `s`, most significant first. */
  function OctalValue(s: seq<byte>): (v: nat)
    requires AllOctal(s)
    ensures v < Pow8(|s|)
  {
    if |s| == 0 then 0
    else OctalValue(s[..|s| - 1]) * 8 + DigitValue(s[|s| - 1])
  }

  /** Digits-only base-8 parse: defined exactly when every byte is an octal digit. */
  function ParseOctal(s: seq<byte>): (r: Option<nat>)
    ensures r.Some? <==> AllOctal(s)
    ensures r.Some? ==> r.value < Pow8(|s|)
    ensures r.Some? ==> OctalDigits(r.value, |s|) == s
  {
    if AllOctal(s) then OctalDigitsOfValue(s); Some(OctalValue(s)) else None
  }

  /** `width` octal digits of `n`, zero-padded on the left, as a tar writer lays out the size. */
  function OctalDigits(n: nat, width: nat): (s: seq<byte>)
    ensures |s| == width && AllOctal(s)
  {
    if width == 0 then [] else OctalDigits(n / 8, width - 1) + [DigitByte(n % 8)]
  }

  /** Python `s.strip()` on the decoded field: leading and trailing whitespace removed. */
  function Strip(s: seq<byte>): (r: seq<byte>)
  {
    RStrip(LStrip(s, SpacePadding), SpacePadding)
  }

  /** The entry name: the first 100 bytes with trailing NULs removed (not cut at the first NUL). */
  function EntryName(header: seq<byte>): (name: seq<byte>)
    ensures |name| <= NAME_LEN
  {
    RStrip(Slice(header, NAME_OFFSET, NAME_OFFSET + NAME_LEN), NulPadding)
  }

  /**
    The name keeps every byte of the 100-byte field up to its last non-NUL byte: only
    trailing NULs go, so a NUL in the middle stays part of the name.
  */
  lemma EntryNameStripsTrailingNuls(header: seq<byte>)
    ensures var field := Slice(header, NAME_OFFSET, NAME_OFFSET + NAME_LEN);
            && EntryName(header) == field[..|EntryName(header)|]
            && (forall k :: |EntryName(header)| <= k < |field| ==> field[k] == 0)
            && (|EntryName(header)| == 0 || EntryName(header)[|EntryName(header)| - 1] != 0)
  {
    RStripSplits(Slice(header, NAME_OFFSET, NAME_OFFSET + NAME_LEN), NulPadding);
  }

  /** The raw 12-byte size field, clamped when the header block is short. */
  function SizeField(header: seq<byte>): (f: seq<byte>)
    ensures |f| <= SIZE_LEN
  {
    Slice(header, SIZE_OFFSET, SIZE_OFFSET + SIZE_LEN)
  }

  /**
    The declared payload size: trailing NULs stripped, then surrounding whitespace; an
    empty field means 0, anything that is not all octal digits is an error.
  */
  function DecodeSize(header: seq<byte>): (r: Result<nat, HeaderError>)
    ensures r.Ok? ==> r.value < Pow8(SIZE_LEN)
  {
    var field := Strip(RStrip(SizeField(header), NulPadding));
    if |field| == 0 then Ok(0)
    else match ParseOctal(field)
      case Some(n) => Pow8Monotone(|field|, SIZE_LEN); Ok(n)
      case None => Err(BadSizeField(field))
  }

  /** The bytes in `blocks` whole blocks (`BLOCK` is 512; the literal keeps the product linear). */
  function BlockBytes(blocks: nat): nat {
    blocks * 512
  }

  /** Payload blocks of an entry: the least block count whose bytes hold `size`. */
  function BlockCount(size: nat): (blocks: nat)
    ensures BlockBytes(blocks) >= size
    ensures blocks == 0 || BlockBytes(blocks - 1) < size
  {
    (size + 511) / 512
  }

  /** Zero bytes that follow a `size`-byte payload up to its block boundary. */
  function PadCount(size: nat): (pad: nat)
    ensures pad < BLOCK
    ensures (size + pad) % BLOCK == 0
    ensures size + pad == BlockBytes(BlockCount(size))
  {
    BlockBytes(BlockCount(size)) - size
  }

  // ---------------------------------------------------------------------------
  // Properties of the size codec
  // ---------------------------------------------------------------------------

  lemma {:induction false} Pow8Monotone(m: nat, n: nat)
    requires m <= n
    ensures Pow8(m) <= Pow8(n)
  {
    if m < n {
      Pow8Monotone(m, n - 1);
    }
  }

  /** Writing `n` in `width` octal digits and reading them back gives `n` when it fits. */
  lemma {:induction false} OctalRoundTrip(n: nat, width: nat)
    requires n < Pow8(width)
    ensures OctalValue(OctalDigits(n, width)) == n
  {
    if width > 0 {
      var s := OctalDigits(n, width);
      assert s[..|s| - 1] == OctalDigits(n / 8, width - 1);
      assert DigitValue(s[|s| - 1]) == n % 8;
      assert n / 8 < Pow8(width - 1);
      OctalRoundTrip(n / 8, width - 1);
      assert OctalValue(s) == (n / 8) * 8 + n % 8;
    }
  }

  /** Reading octal digits and writing the value back in as many digits gives the same bytes. */
  lemma {:induction false} OctalDigitsOfValue(s: seq<byte>)
    requires AllOctal(s)
    ensures OctalDigits(OctalValue(s), |s|) == s
    decreases |s|
  {
    if |s| > 0 {
      var init := s[..|s| - 1];
      var last := s[|s| - 1];
      OctalDigitsOfValue(init);
      var v := OctalValue(s);
      assert v / 8 == OctalValue(init) && v % 8 == DigitValue(last);
      assert DigitByte(DigitValue(last)) == last;
      assert s == init + [last];
    }
  }

  /** Every byte of `s` is padding of kind `p`. */
  predicate AllPadding(s: seq<byte>, p: Padding) {
    forall k :: 0 <= k < |s| ==> IsPadding(s[k], p)
  }

  /** Padding appended to `s` is all removed again by `RStrip`. */
  lemma {:induction false} RStripPaddingSuffix(s: seq<byte>, t: seq<byte>, p: Padding)
    requires AllPadding(t, p)
    ensures RStrip(s + t, p) == RStrip(s, p)
    decreases |t|
  {
    if |t| == 0 {
      assert s + t == s;
    } else {
      var t' := t[..|t| - 1];
      assert (s + t)[..|s + t| - 1] == s + t';
      RStripPaddingSuffix(s, t', p);
    }
  }

  /** Padding put in front of `s` is all removed again by `LStrip`. */
  lemma {:induction false} LStripPaddingPrefix(t: seq<byte>, s: seq<byte>, p: Padding)
    requires AllPadding(t, p)
    ensures LStrip(t + s, p) == LStrip(s, p)
    decreases |t|
  {
    if |t| == 0 {
      assert t + s == s;
    } else {
      assert (t + s)[1..] == t[1..] + s;
      LStripPaddingPrefix(t[1..], s, p);
    }
  }

  /** Whitespace around octal digits is exactly what `Strip` removes. */
  lemma StripAroundDigits(lead: seq<byte>, digits: seq<byte>, trail: seq<byte>)
    requires AllPadding(lead, SpacePadding) && AllPadding(trail, SpacePadding) && AllOctal(digits)
    ensures Strip(lead + digits + trail) == digits
  {
    assert lead + digits + trail == lead + (digits + trail);
    LStripPaddingPrefix(lead, digits + trail, SpacePadding);
    if |digits| == 0 {
      assert digits + trail == trail + [];
      LStripPaddingPrefix(trail, [], SpacePadding);
    } else {
      assert (digits + trail)[0] == digits[0];
      RStripPaddingSuffix(digits, trail, SpacePadding);
      assert IsOctalDigit(digits[|digits| - 1]);
    }
  }

  /** A string with no NUL in it loses nothing to the trailing-NUL strip, even with NULs appended. */
  lemma RStripNulsAfterText(x: seq<byte>, nuls: seq<byte>)
    requires forall k :: 0 <= k < |x| ==> !IsNul(x[k])
    requires AllPadding(nuls, NulPadding)
    ensures RStrip(x + nuls, NulPadding) == x
  {
    RStripPaddingSuffix(x, nuls, NulPadding);
  }

  /**
    `f` is whitespace, octal digits, whitespace and then NULs: the layouts a size field
    may have and still decode, with `digits` the part that is parsed.
  */
  predicate PaddedOctal(f: seq<byte>, lead: seq<byte>, digits: seq<byte>, trail: seq<byte>, nuls: seq<byte>) {
    && AllPadding(lead, SpacePadding)
    && AllOctal(digits)
    && AllPadding(trail, SpacePadding)
    && AllPadding(nuls, NulPadding)
    && f == lead + digits + trail + nuls
  }

  /** A padded octal size field decodes to the value of its digits. */
  lemma DecodePaddedField(header: seq<byte>, lead: seq<byte>, digits: seq<byte>, trail: seq<byte>, nuls: seq<byte>)
    requires PaddedOctal(SizeField(header), lead, digits, trail, nuls)
    ensures DecodeSize(header) == Ok(OctalValue(digits))
  {
    var x := lead + digits + trail;
    assert SizeField(header) == x + nuls;
    forall k | 0 <= k < |x|
      ensures !IsNul(x[k])
    {
      if k < |lead| {
        assert x[k] == lead[k];
      } else if k < |lead| + |digits| {
        assert x[k] == digits[k - |lead|];
      } else {
        assert x[k] == trail[k - |lead| - |digits|];
      }
    }
    RStripNulsAfterText(x, nuls);
    StripAroundDigits(lead, digits, trail);
  }

  /**
    Any size field cuts into leading whitespace, the part the trims keep, trailing
    whitespace and trailing NULs.
  */
  lemma CutSizeField(f: seq<byte>) returns (lead: seq<byte>, kept: seq<byte>, trail: seq<byte>, nuls: seq<byte>)
    ensures AllPadding(lead, SpacePadding) && AllPadding(trail, SpacePadding) && AllPadding(nuls, NulPadding)
    ensures f == lead + kept + trail + nuls
    ensures kept == Strip(RStrip(f, NulPadding))
  {
    var r := RStrip(f, NulPadding);
    RStripRemoves(f, NulPadding);
    nuls := f[|r|..];
    var l := LStrip(r, SpacePadding);
    LStripRemoves(r, SpacePadding);
    lead := r[..|r| - |l|];
    kept := RStrip(l, SpacePadding);
    RStripRemoves(l, SpacePadding);
    trail := l[|kept|..];
  }

  /** What `RStrip` removes is padding, and putting it back gives the input. */
  lemma RStripRemoves(s: seq<byte>, p: Padding)
    ensures s == RStrip(s, p) + s[|RStrip(s, p)|..]
    ensures AllPadding(s[|RStrip(s, p)|..], p)
  {
    RStripSplits(s, p);
    var t := s[|RStrip(s, p)|..];
    forall k | 0 <= k < |t| ensures IsPadding(t[k], p) {
      assert t[k] == s[|RStrip(s, p)| + k];
    }
  }

  /** What `LStrip` removes is padding, and putting it back gives the input. */
  lemma LStripRemoves(s: seq<byte>, p: Padding)
    ensures s == s[..|s| - |LStrip(s, p)|] + LStrip(s, p)
    ensures AllPadding(s[..|s| - |LStrip(s, p)|], p)
  {
    LStripSplits(s, p);
    var t := s[..|s| - |LStrip(s, p)|];
    forall k | 0 <= k < |t| ensures IsPadding(t[k], p) {
      assert t[k] == s[k];
    }
  }

  /**
    The size decodes to `n` exactly when the field is whitespace, octal digits worth `n`,
    whitespace and then NULs. A blank or NUL between two digits (`0000 1234`) therefore
    makes the header undecodable, as does any other byte.
  */
  lemma DecodeSizeExactly(header: seq<byte>, n: nat)
    ensures DecodeSize(header) == Ok(n) <==>
              exists lead, digits, trail, nuls ::
                PaddedOctal(SizeField(header), lead, digits, trail, nuls) && OctalValue(digits) == n
  {
    if DecodeSize(header) == Ok(n) {
      var lead, kept, trail, nuls := CutSizeField(SizeField(header));
      assert AllOctal(kept) && OctalValue(kept) == n;
      assert PaddedOctal(SizeField(header), lead, kept, trail, nuls);
    }
    if exists lead, digits, trail, nuls ::
         PaddedOctal(SizeField(header), lead, digits, trail, nuls) && OctalValue(digits) == n {
      var lead, digits, trail, nuls :|
        PaddedOctal(SizeField(header), lead, digits, trail, nuls) && OctalValue(digits) == n;
      DecodePaddedField(header, lead, digits, trail, nuls);
    }
  }

  /**
    A size field laid out as optional whitespace, `width` octal digits of `n`, optional
    whitespace and then NULs decodes to `n`: this covers the space-terminated
    `00000001234 ` layout as well as the NUL-terminated one, and right-aligned numbers.
  */
  lemma {:induction false} SizeFieldWithPadding(header: seq<byte>, lead: seq<byte>, n: nat, width: nat, trail: seq<byte>, nuls: seq<byte>)
    requires |header| >= SIZE_OFFSET + SIZE_LEN
    requires n < Pow8(width)
    requires AllPadding(lead, SpacePadding) && AllPadding(trail, SpacePadding) && AllPadding(nuls, NulPadding)
    requires header[SIZE_OFFSET..SIZE_OFFSET + SIZE_LEN] == lead + OctalDigits(n, width) + trail + nuls
    ensures DecodeSize(header) == Ok(n)
  {
    assert PaddedOctal(SizeField(header), lead, OctalDigits(n, width), trail, nuls);
    DecodePaddedField(header, lead, OctalDigits(n, width), trail, nuls);
    OctalRoundTrip(n, width);
  }

  /**
    A header whose size field is an 11-digit octal number followed by a NUL (the ustar
    layout) decodes to that number.
  */
  lemma SizeFieldRoundTrip(header: seq<byte>, n: nat)
    requires |header| >= SIZE_OFFSET + SIZE_LEN
    requires n < Pow8(SIZE_LEN - 1)
    requires header[SIZE_OFFSET..SIZE_OFFSET + SIZE_LEN] == OctalDigits(n, SIZE_LEN - 1) + [0]
    ensures DecodeSize(header) == Ok(n)
  {
    var digits := OctalDigits(n, SIZE_LEN - 1);
    var f := SizeField(header);
    assert f[..|f| - 1] == digits;
    DigitsAreNotPadding(digits);
    assert RStrip(f, NulPadding) == digits;
    assert Strip(digits) == digits;
    OctalRoundTrip(n, SIZE_LEN - 1);
  }

  /** Octal digits are neither NUL nor whitespace, so no strip removes them. */
  lemma DigitsAreNotPadding(s: seq<byte>)
    requires |s| > 0 && AllOctal(s)
    ensures RStrip(s, NulPadding) == s && RStrip(s, SpacePadding) == s
    ensures LStrip(s, SpacePadding) == s
  {
    assert IsOctalDigit(s[0]) && IsOctalDigit(s[|s| - 1]);
  }

  /** A size field made only of NUL bytes is the empty field and means size 0. */
  lemma EmptySizeFieldIsZero(header: seq<byte>)
    requires forall k :: SIZE_OFFSET <= k < SIZE_OFFSET + SIZE_LEN && k < |header| ==> header[k] == 0
    ensures DecodeSize(header) == Ok(0)
  {
    RStripSplits(SizeField(header), NulPadding);
  }

  /**
    A byte in the size field that is neither an octal digit, nor whitespace, nor NUL
    survives the trimming and makes the header undecodable: the pass must abort rather
    than guess a block count.
  */
  lemma SizeFieldRejectsJunk(header: seq<byte>, k: nat)
    requires SIZE_OFFSET <= k < SIZE_OFFSET + SIZE_LEN && k < |header|
    requires !IsOctalDigit(header[k]) && !IsSpace(header[k]) && !IsNul(header[k])
    ensures DecodeSize(header).Err?
  {
    var f := SizeField(header);
    var j := k - SIZE_OFFSET;
    assert f[j] == header[k];
    var r := RStrip(f, NulPadding);
    RStripSplits(f, NulPadding);
    assert j < |r|;
    assert r[j] == header[k];
    var l := LStrip(r, SpacePadding);
    LStripSplits(r, SpacePadding);
    var i := j - (|r| - |l|);
    assert 0 <= i < |l| && l[i] == header[k];
    var t := RStrip(l, SpacePadding);
    RStripSplits(l, SpacePadding);
    assert i < |t| && t[i] == header[k];
    assert !AllOctal(t);
  }
}

=== FILE: wrappers.dfy ===
/** Option and Result values used in place of Python's `None` returns and raised exceptions. */
module Wrappers {

  /** A value that may be absent. */
  datatype Option<+T> = None | Some(value: T)

  /** Either a computed value or the error that aborted the computation. */
  datatype Result<+T, +E> = Ok(value: T) | Err(error: E)
}
